=== FILE: README.md ===
# spacyfishing in Dafny

A verified model of the core of `spacyfishing`, a spaCy pipeline component that
links the named entities of a document to Wikidata through the entity-fishing
disambiguation service, and of the offset arithmetic of its long-text example.

- `wrappers.dfy` (`Wrappers`): `Option` and `Result`.
- `fishing_wire.dfy` (`FishingWire`): what crosses the wire. The query payload
  is a datatype, not text. Decoded JSON bodies are projected onto the keys the
  component reads (`entities`, `definitions`); an absent key is `None`. The
  module also holds the response metadata with the `requests` meaning of `ok`,
  the `Retry-After` header read with `int(...)`, and the network as a class
  `Network`. A `Network` answers each request through an abstract function and
  keeps a trace of what was sent and of every sleep.
- `entity_fishing_linker.dfy` (`EntityFishingLinker`): the `EntityFishing`
  component. It has a constructor that normalises the base URL, the generic
  client that retries once on 429, the two endpoint calls, and `__call__`.
  `__call__` builds the query, keeps the decode fallback and the metadata,
  applies the attach condition and runs the attach loop. The loop works over a
  mutable map from span coordinates `(start, end)` to the span's attributes
  (`kb_qid`, `url_wikidata`, `nerd_score`, `description`). Equal coordinates
  share one entry, so a repeated span keeps the last write. The loop is proved
  against a specification function (`AttachAll`), and the lemmas about that
  function state what the loop promises:
  - a missing key aborts only its own entity, and fields written before it stay;
  - spans no entity targets are untouched;
  - without descriptions no request is made and nothing is raised;
  - the URL always equals the Wikidata page of the identifier;
  - the last entity targeting a span wins.
- `process_long_text.dfy` (`LongText`): `text_preprocessor` (split on `"\n"`,
  drop pieces that are exactly `""`, strip) and `CustomNer.__call__`.
  `CustomNer.__call__` moves each entity's character offsets from its sentence
  into the `" ".join(sentences)` text. The round trip is proved: slicing the
  joined text at the recomputed offsets gives back the entity's text.

Exceptions that escape `__call__` are an outcome `Some(e)`. Whatever was
written to the document before the exception stays written. The escaping
exceptions are:
- `KeyError('entities')` at line 161 when the result has no `entities` key
  (including the `{}` of the decode fallback);
- `KeyError('Retry-After')` when the disambiguation request is answered 429
  without a `Retry-After` header (line 96, reached from line 143 outside any
  `try`);
- `ValueError` from a bad `Retry-After`;
- `HTTPError` from `raise_for_status` during the concept look-up;
- a decode error of the concept body;
- `IndexError` on an empty `definitions` list.

Only inside the description step is a `KeyError` swallowed. This covers a missing
`definitions` key and a missing `definition` key. It also covers a 429 without
a `Retry-After` header, because that header lookup sits inside the inner `try`.

Facts about the code that the model keeps:
- `ok` in the metadata is `requests`' `Response.ok`, which is false exactly for
  statuses 400–599 (a 3xx status is `ok`).
- A missing key in a result entity aborts the rest of that entity; fields
  already written to the span stay written.
- The exceptions listed above escape `__call__`.
- The offsets sent to the service and used to find the span are token indices
  (`ent.start`, `ent.end`, `doc[a:b]`), not character offsets.
- The integration tests assert per-pass metadata keys
  (`disambiguation_text_service`, `disambiguation_terms_service`) that this
  linker never writes; the model records the metadata as the linker does.

## Model

| member | source | states |
|---|---|---|
| `EntityFishingLinker.NormaliseBase` | spacyfishing/entity_fishing_linker.py:48-50 | the result ends with "/", extends the given base by at most one character, and equals the base exactly when the base already ends with "/" |
| `EntityFishingLinker.NormaliseIdempotent` | spacyfishing/entity_fishing_linker.py:48-50 | normalising an already normalised base changes nothing |
| `EntityFishingLinker.EntityFishing.constructor` | spacyfishing/entity_fishing_linker.py:25-53 | the stored base is the normalised base (so it ends with "/"), language is `{"lang": language}`, the flag is the description flag, and the Wikidata base is the fixed page prefix |
| `EntityFishingLinker.DisambiguateRequest` | spacyfishing/entity_fishing_linker.py:123-124 | a POST with no parameters whose URL is the base followed by exactly "disambiguate", carrying the given files |
| `EntityFishingLinker.ConceptRequest` | spacyfishing/entity_fishing_linker.py:109-112 | a GET with params `{"lang": language}` and no files whose URL splits into base, "kb/concept/" and the identifier |
| `EntityFishingLinker.ConceptUrlInjective` | spacyfishing/entity_fishing_linker.py:109 | two identifiers with the same look-up URL are equal |
| `EntityFishingLinker.Exchange` | spacyfishing/entity_fishing_linker.py:92-99 | the client's first event is sending the caller's request; it either stops there or sleeps and sends the same request once more; it fails only after a first answer of 429, without sending again; and a 429 whose Retry-After is missing or unreadable does fail, with the KeyError or ValueError that reading the header raises |
| `EntityFishingLinker.ExchangeRequests` | spacyfishing/entity_fishing_linker.py:92-99 | the client sends one or two requests, all of them the caller's request; it sends two exactly when the first answer is 429 with a usable Retry-After, and sleeps that many seconds between them |
| `EntityFishingLinker.ExchangeWithoutRetry` | spacyfishing/entity_fishing_linker.py:92-99 | a first answer other than 429 is returned unchanged |
| `EntityFishingLinker.ExchangeSecondAnswerFinal` | spacyfishing/entity_fishing_linker.py:95-99 | after a 429 the second answer is returned even when it is itself a 429; there is no further retry |
| `EntityFishingLinker.EntityFishing.GenericClient` | spacyfishing/entity_fishing_linker.py:67-99 | the result and the requests and sleep added to the network trace are those of the one-retry exchange, including the KeyError/ValueError of an unusable Retry-After |
| `EntityFishingLinker.EntityFishing.ConceptLookUp` | spacyfishing/entity_fishing_linker.py:101-112 | runs the generic client on the concept look-up request for the identifier |
| `EntityFishingLinker.EntityFishing.DisambiguateText` | spacyfishing/entity_fishing_linker.py:114-124 | runs the generic client on the disambiguation request with the given files |
| `EntityFishingLinker.BuildQuery` | spacyfishing/entity_fishing_linker.py:130-140 | one record per document entity, in order, with rawName/offsetStart/offsetEnd taken from the entity's text/start/end; mention hints `["ner","wikipedia"]` exactly when the document has no entity, otherwise none; customisation "generic"; text and language passed through |
| `EntityFishingLinker.QueryKeepsEnts` | spacyfishing/entity_fishing_linker.py:133-137 | the document's entities can be read back from the query unchanged |
| `FishingWire.DecodeOrEmpty` | spacyfishing/entity_fishing_linker.py:146-149 | an undecodable body gives `{}`; a decodable one gives its JSON object; the result is `{}` exactly in those two cases |
| `FishingWire.MetadataOf` | spacyfishing/entity_fishing_linker.py:153-158 | status code, reason and encoding are the response's; `ok` holds exactly when the status is not a 4xx/5xx error |
| `FishingWire.MetadataIgnoresBody` | spacyfishing/entity_fishing_linker.py:151-158 | the recorded metadata does not depend on the body, so it is the same whether or not the body decodes |
| `FishingWire.ParseInt` | spacyfishing/entity_fishing_linker.py:96 | `int()` succeeds exactly on an optional sign followed by one or more ASCII digits; unsigned and "+"-signed digits give their decimal value, "-"-signed digits its negation; a negative result only ever comes from a leading "-" |
| `FishingWire.ParseDecimal` | spacyfishing/entity_fishing_linker.py:96 | reading back the decimal text of a natural number gives that number |
| `FishingWire.RetryAfter` | spacyfishing/entity_fishing_linker.py:96 | a missing Retry-After header is a KeyError; a present header never is: it gives its value exactly when `int` reads it as a non-negative number, and a ValueError otherwise (unreadable text, or a negative delay that `time.sleep` refuses) |
| `FishingWire.RetryAfterHonoured` | spacyfishing/entity_fishing_linker.py:95-97 | a 429 that announces `Retry-After: n` makes the client wait exactly n seconds |
| `FishingWire.Network.Send` | spacyfishing/entity_fishing_linker.py:83-90 | the request is appended to the trace and answered by the service oracle at that position |
| `FishingWire.Network.Sleep` | spacyfishing/entity_fishing_linker.py:96 | the sleep is appended to the trace with its duration and nothing else changes |
| `EntityFishingLinker.AttachEntity` | spacyfishing/entity_fishing_linker.py:163-177 | one iteration only extends the network trace, and any exception it lets escape is not a KeyError (the `except KeyError` of line 176 catches those) |
| `EntityFishingLinker.AttachAll` | spacyfishing/entity_fishing_linker.py:162-177 | the loop only extends the network trace, and no KeyError ever escapes it |
| `EntityFishingLinker.AttachAllAborted` | spacyfishing/entity_fishing_linker.py:162-177 | once an exception has escaped the loop, the remaining result entities change nothing |
| `EntityFishingLinker.AttachEntityPartial` | spacyfishing/entity_fishing_linker.py:163-167 | an entity missing an offset or its wikidataId changes nothing; one missing nerd_selection_score keeps the kb_qid and url_wikidata already written, leaves the score as it was, sends nothing and raises nothing |
| `EntityFishingLinker.Describe` | spacyfishing/entity_fishing_linker.py:168-175 | the description step first sends the concept look-up for the span's identifier, only extends the trace, and lets no KeyError escape |
| `EntityFishingLinker.DescribeTouchesOnlyDescription` | spacyfishing/entity_fishing_linker.py:168-175 | the description step only extends the trace and changes at most the description of its own span; identifier, URL and score stay; when it raises, no span changes |
| `EntityFishingLinker.DescribeSetsDefinition` | spacyfishing/entity_fishing_linker.py:170-173 | when the look-up answers without error with a non-empty `definitions` list whose first element has a `definition`, that text becomes the span's description and nothing is raised |
| `EntityFishingLinker.DescribeSwallowsKeyErrors` | spacyfishing/entity_fishing_linker.py:169-175 | a KeyError from the client (missing Retry-After), a missing `definitions` key or a missing `definition` key leaves every span unchanged and raises nothing |
| `EntityFishingLinker.DescribeMissingRetryAfter` | spacyfishing/entity_fishing_linker.py:95-96 | a concept look-up answered 429 without Retry-After sends one request, changes nothing and raises nothing |
| `EntityFishingLinker.DescribeEscapes` | spacyfishing/entity_fishing_linker.py:169-175 | a client failure escapes unless it is a KeyError; a 4xx/5xx answer escapes as HTTPError with its status; an undecodable body as a decode error; an empty `definitions` list as IndexError |
| `EntityFishingLinker.AttachEntityLooksUp` | spacyfishing/entity_fishing_linker.py:167-170 | with descriptions on and a score present, the next request sent is the concept look-up of the entity's identifier |
| `EntityFishingLinker.AttachFrame` | spacyfishing/entity_fishing_linker.py:162-177 | a span no result entity targets keeps its attributes, whatever happens to the others |
| `EntityFishingLinker.AttachWithoutDescriptions` | spacyfishing/entity_fishing_linker.py:168-175 | with the description flag off the loop sends no request, raises nothing and changes no description |
| `EntityFishingLinker.AttachEntityKeepsLinked` | spacyfishing/entity_fishing_linker.py:165-173 | one step keeps every span consistent: URL set exactly when the identifier is, and equal to the Wikidata page of it; score and description only on identified spans |
| `EntityFishingLinker.AttachKeepsLinked` | spacyfishing/entity_fishing_linker.py:162-177 | the whole loop keeps that consistency |
| `EntityFishingLinker.LastLink` | spacyfishing/entity_fishing_linker.py:162-165 | reference definition of the winning write: it names an entity that targets the span and no later entity targets it, or no entity targets the span at all |
| `EntityFishingLinker.AttachEntityQid` | spacyfishing/entity_fishing_linker.py:164-165 | one iteration gives its own span the entity's wikidataId and leaves the kb_qid of every other span as it was |
| `EntityFishingLinker.AttachEntityWrites` | spacyfishing/entity_fishing_linker.py:163-167 | an iteration on a targeted span gives it the entity's wikidataId as kb_qid, the Wikidata URL of that identifier and, when the entity has a nerd_selection_score, that score as nerd_score |
| `EntityFishingLinker.AttachEntityDescription` | spacyfishing/entity_fishing_linker.py:165-175 | an iteration changes the description of the span it targets only when descriptions are on, the entity has a score, nothing escapes and the look-up delivered a definition; a swallowed KeyError leaves an earlier entity's description in place |
| `EntityFishingLinker.AttachLastWriteWins` | spacyfishing/entity_fishing_linker.py:162-165 | when the loop completes, each span's kb_qid is that of the last entity targeting it, or its earlier value if none does |
| `EntityFishingLinker.EntityFishing.DescribeSpan` | spacyfishing/entity_fishing_linker.py:168-175 | new span map, trace and escaping exception are those of the description step for the span's own kb_qid |
| `EntityFishingLinker.EntityFishing.AttachOne` | spacyfishing/entity_fishing_linker.py:163-177 | new span map, trace and escaping exception after one entity are those of one step of the attach specification |
| `EntityFishingLinker.EntityFishing.AttachLinks` | spacyfishing/entity_fishing_linker.py:162-177 | the span map, the trace and the escaping exception after the loop are those of the attach specification over the result entities in order |
| `EntityFishingLinker.EntityFishing.Call` | spacyfishing/entity_fishing_linker.py:126-179 | a failing client call escapes with the document untouched; otherwise annotations (decoded or `{}`) and metadata are always recorded; a missing `entities` key escapes as KeyError; no span changes unless the result has entities, the document has entities and the status is 200, and then the loop runs as specified |
| `LongText.Split` | examples/process_long_text.py:32 | `str.split` gives at least one piece and no piece contains the separator |
| `LongText.JoinSplit` | examples/process_long_text.py:32 | joining the pieces with the separator gives the text back |
| `LongText.SplitJoin` | examples/process_long_text.py:32 | splitting pieces joined by a separator none contains gives the pieces back |
| `LongText.Strip` | examples/process_long_text.py:32 | the result neither starts nor ends with whitespace, and an all-whitespace string strips to "" |
| `LongText.StripTrims` | examples/process_long_text.py:32 | the result is the slice of the input between a whitespace prefix and a whitespace suffix |
| `LongText.TextPreprocessor` | examples/process_long_text.py:31-32 | every returned sentence is stripped |
| `LongText.NonEmptyPiecesDropsOnlyEmpty` | examples/process_long_text.py:32 | the filter `if sentence != ""` drops exactly the pieces equal to "": every other piece is kept as often as it occurs |
| `LongText.NonEmptyPiecesAppend` | examples/process_long_text.py:32 | the filter keeps the input's order: the kept pieces of a concatenation are those of the first part followed by those of the second |
| `LongText.MapKeptKeepsOrder` | examples/process_long_text.py:32 | the comprehension yields one line per piece that is not exactly "", in order, each the function applied to that piece |
| `LongText.StripKeepsNoBreak` | examples/process_long_text.py:32 | stripping a line that has no line break cannot produce one |
| `LongText.TextPreprocessorLines` | examples/process_long_text.py:31-32 | the sentences are the stripped non-empty lines of the text, in order, as many as there are such lines, none containing "\n" |
| `LongText.BlankLineKept` | examples/process_long_text.py:32 | a non-empty line of only whitespace is not dropped: it yields an empty sentence in its place |
| `LongText.SentenceStartStep` | examples/process_long_text.py:50-61 | the next sentence's offset is this sentence's offset plus its length plus one |
| `LongText.SentenceInJoin` | examples/process_long_text.py:55-76 | sentence i occupies the joined text from its offset (sum of length+1 over earlier sentences) for its own length |
| `LongText.SpanAt` | examples/process_long_text.py:57-60 | entity j of sentence i yields the span at position (entities before i)+j, starting at the sentence offset plus ent.start_char, as long as ent.text, with its label |
| `LongText.SpansMatchEntities` | examples/process_long_text.py:51-60 | exactly one span per entity across all sentences, in sentence-then-entity order, each as long as its entity's text and with its label |
| `LongText.RoundTrip` | examples/process_long_text.py:53-60 | if the entity's text sits in its sentence at ent.start_char, the joined text sliced at the recomputed span is the entity's text |
| `LongText.CustomNer.constructor` | examples/process_long_text.py:40-47 | keeps the NER model and the sentences to process |
| `LongText.AppendSentenceSpans` | examples/process_long_text.py:57-60 | the inner loop over one sentence's entities leaves the span list extended by exactly that sentence's recomputed spans, in entity order |
| `LongText.CustomNer.Call` | examples/process_long_text.py:49-65 | the entities installed on the document, once, after the loop, are the recomputed spans of all sentences' entities in order |

## Left out

- HTTP itself (`requests.request`, the `Accept` header, connection errors and timeouts): the service is an oracle answering each request by its position in the trace; `time.sleep` is recorded as a trace event.
- `FishingWire.RetryAfter`: `requests` looks headers up case-insensitively; the model looks up the exact name `Retry-After`. The model also accepts any non-negative delay, where CPython's `time.sleep` raises `OverflowError` for very large values (about 9.2e9 seconds and up), which would escape `__call__`.
- `FishingWire.ParseInt`: `int()` also accepts surrounding whitespace, underscores between digits and non-ASCII digits; the model reads only an optional sign followed by ASCII digits, so it raises `ValueError` on some headers that Python would accept. It also parses numbers of any length, where Python 3.11 and later refuse more than 4300 digits with `ValueError`.
- JSON: decoding as text, the `str(dict)` serialisation of the query (line 130), and bodies that decode to something other than an object. Type errors from ill-typed fields are not modelled either (a non-integer offset, a non-string `wikidataId`, a non-list `entities`); the fields are typed. Keys other than `entities` and `definitions` are not modelled.
- Floating point: `nerd_selection_score` is carried as a `real` and only copied.
- spaCy machinery: factory registration and its default configuration, `set_extension`, and `Doc.__getitem__`'s clamping of negative or out-of-range slice bounds (the model uses the service's offsets as the span key unchanged). Also left out: the exact key under which spaCy stores span extensions (modelled as the token coordinates), `doc.char_span` returning `None`, and what `set_ents` does with overlapping or missing spans (modelled as plain installation).
- The NER model (`spacy.load`, `pipe`): a function from sentence text to its entities, whose `sent.text` is the sentence itself.
- File reading and the `__main__` script of the long-text example, `setup.py`, and the integration tests (they need the live service).

=== FILE: entity_fishing_linker.dfy ===
/**
 * The spaCy component `EntityFishing`: it sends a document's entities to the
 * entity-fishing disambiguation service and writes the Wikidata identifier,
 * its URL, the selection score and (optionally) a description onto the spans
 * the service linked.
 *
 * The component's configuration never changes after construction; the
 * document it processes and the network trace do.
 */
module EntityFishingLinker {
  import opened Wrappers
  import opened FishingWire

  const WikidataUrlBase := "https://www.wikidata.org/wiki/"
  const DisambiguatePath := "disambiguate"
  const ConceptPath := "kb/concept/"

  // ---------------------------------------------------------------------
  // Base URL and endpoints
  // ---------------------------------------------------------------------

  predicate EndsWithSlash(s: string) {
    |s| > 0 && s[|s| - 1] == '/'
  }

  /** The service base with a "/" appended unless it already ends with one. */
  function NormaliseBase(base: string): (r: string)
    ensures EndsWithSlash(r)
    ensures |base| <= |r| <= |base| + 1 && r[..|base|] == base
    ensures r == base <==> EndsWithSlash(base)
  {
    if EndsWithSlash(base) then base else base + "/"
  }

  /** Normalising twice is normalising once. */
  lemma NormaliseIdempotent(base: string)
    ensures NormaliseBase(NormaliseBase(base)) == NormaliseBase(base)
  {
  }

  /** The configuration the component keeps: normalised base, `{"lang": language}` and the description flag. */
  datatype Settings = Settings(apiEfBase: string, language: map<string, string>, flagDesc: bool)

  function DisambiguateRequest(settings: Settings, files: map<string, Query>): (r: HttpRequest)
    ensures r.verb == Post && r.params == map[] && r.files == files
    ensures |r.url| == |settings.apiEfBase| + |DisambiguatePath|
    ensures r.url[..|settings.apiEfBase|] == settings.apiEfBase && r.url[|settings.apiEfBase|..] == DisambiguatePath
  {
    HttpRequest(Post, settings.apiEfBase + DisambiguatePath, map[], files)
  }

  function ConceptRequest(settings: Settings, qid: string): (r: HttpRequest)
    ensures r.verb == Get && r.params == settings.language && r.files == map[]
    ensures |r.url| == |settings.apiEfBase| + |ConceptPath| + |qid|
    ensures r.url[..|settings.apiEfBase|] == settings.apiEfBase
    ensures r.url[|settings.apiEfBase|..|settings.apiEfBase| + |ConceptPath|] == ConceptPath
    ensures r.url[|settings.apiEfBase| + |ConceptPath|..] == qid
  {
    HttpRequest(Get, settings.apiEfBase + ConceptPath + qid, settings.language, map[])
  }

  /** Different identifiers are looked up at different URLs. */
  lemma ConceptUrlInjective(settings: Settings, qid1: string, qid2: string)
    requires ConceptRequest(settings, qid1).url == ConceptRequest(settings, qid2).url
    ensures qid1 == qid2
  {
    var n := |settings.apiEfBase| + |ConceptPath|;
    assert qid1 == ConceptRequest(settings, qid1).url[n..];
  }

  // ---------------------------------------------------------------------
  // The generic client: one retry on 429
  // ---------------------------------------------------------------------

  /** What one call of the generic client returns and what it adds to the network trace. */
  datatype ClientRun = ClientRun(result: Result<HttpResponse, PyException>, events: seq<Event>)

  /**
   * The generic client started on a network whose trace is `trace`: send the
   * request; on a 429, sleep for `Retry-After` seconds and send it once more,
   * returning the second response whatever its status.
   */
  function Exchange(answer: (HttpRequest, nat) -> HttpResponse, request: HttpRequest, trace: seq<Event>): (x: ClientRun)
    ensures |x.events| >= 1 && x.events[0] == Sent(request)
    ensures |x.events| == 1 || (|x.events| == 3 && x.events[1].Slept? && x.events[2] == Sent(request))
    ensures x.result.Failure? ==> |x.events| == 1 && answer(request, |trace|).status == 429
    ensures var first := answer(request, |trace|);
      first.status == 429 && RetryAfter(first).Failure? ==> x.result == Failure(RetryAfter(first).error)
  {
    var first := answer(request, |trace|);
    if first.status != 429 then
      ClientRun(Success(first), [Sent(request)])
    else
      match RetryAfter(first)
      case Failure(e) => ClientRun(Failure(e), [Sent(request)])
      case Success(seconds) => ClientRun(Success(answer(request, |trace| + 2)), [Sent(request), Slept(seconds), Sent(request)])
  }

  /**
   * At most two requests go out, both of them the caller's request; the
   * second goes out exactly when the first answer is a 429 with a usable
   * `Retry-After`, and only after sleeping for that many seconds.
   */
  lemma ExchangeRequests(answer: (HttpRequest, nat) -> HttpResponse, request: HttpRequest, trace: seq<Event>)
    ensures var x := Exchange(answer, request, trace);
      var first := answer(request, |trace|);
      && 1 <= Requests(x.events) <= 2
      && (forall e :: e in x.events && e.Sent? ==> e.request == request)
      && (Requests(x.events) == 2 <==> first.status == 429 && RetryAfter(first).Success?)
      && (Requests(x.events) == 2 ==> x.events[1] == Slept(RetryAfter(first).value))
  {
    var x := Exchange(answer, request, trace);
    if |x.events| == 3 {
      assert x.events[..2][..1] == [Sent(request)];
      assert x.events[..2] == [Sent(request), x.events[1]];
      assert Requests(x.events[..2]) == 1;
    } else {
      assert x.events[..0] == [];
    }
  }

  /** A first answer other than 429 is returned unchanged. */
  lemma ExchangeWithoutRetry(answer: (HttpRequest, nat) -> HttpResponse, request: HttpRequest, trace: seq<Event>)
    requires answer(request, |trace|).status != 429
    ensures Exchange(answer, request, trace).result == Success(answer(request, |trace|))
  {
  }

  /** After a 429 the second answer is returned, even when it is another 429. */
  lemma ExchangeSecondAnswerFinal(answer: (HttpRequest, nat) -> HttpResponse, request: HttpRequest, trace: seq<Event>)
    requires answer(request, |trace|).status == 429 && RetryAfter(answer(request, |trace|)).Success?
    ensures Exchange(answer, request, trace).result == Success(answer(request, |trace| + 2))
  {
  }

  // ---------------------------------------------------------------------
  // The disambiguation query
  // ---------------------------------------------------------------------

  /** An entity of the document: its text and its token offsets. */
  datatype Ent = Ent(text: string, start: int, end: int)

  const MentionHints := ["ner", "wikipedia"]

  /**
   * The query for a document: one record per entity, in order; mention
   * hints only when the document has no entities.
   */
  function BuildQuery(text: string, language: map<string, string>, ents: seq<Ent>): (q: Query)
    ensures q.text == text && q.language == language && q.customisation == "generic"
    ensures |q.entities| == |ents|
    ensures forall i :: 0 <= i < |ents| ==>
      q.entities[i] == EntityRecord(ents[i].text, ents[i].start, ents[i].end)
    ensures q.mentions == MentionHints <==> |ents| == 0
    ensures |ents| > 0 ==> q.mentions == []
  {
    var records := seq(|ents|, i requires 0 <= i < |ents| => EntityRecord(ents[i].text, ents[i].start, ents[i].end));
    Query(text, language, records, if |ents| == 0 then MentionHints else [], "generic")
  }

  /** The entities a query describes. */
  function EntsOf(records: seq<EntityRecord>): (ents: seq<Ent>)
    ensures |ents| == |records|
  {
    if records == [] then []
    else [Ent(records[0].rawName, records[0].offsetStart, records[0].offsetEnd)] + EntsOf(records[1..])
  }

  /** The query loses nothing about the entities: they can be read back from it. */
  lemma {:induction false} QueryKeepsEnts(text: string, language: map<string, string>, ents: seq<Ent>)
    ensures EntsOf(BuildQuery(text, language, ents).entities) == ents
  {
    if ents != [] {
      var q := BuildQuery(text, language, ents);
      QueryKeepsEnts(text, language, ents[1..]);
      assert q.entities[1..] == BuildQuery(text, language, ents[1..]).entities;
    }
  }

  // ---------------------------------------------------------------------
  // Span attributes
  // ---------------------------------------------------------------------

  /** Spans are identified by their token coordinates; equal coordinates share attributes. */
  datatype SpanKey = SpanKey(start: int, end: int)

  /** The extension attributes of a span; `None` is the default `None` of `set_extension`. */
  datatype SpanAttrs = SpanAttrs(
    kbQid: Option<string>,
    description: Option<string>,
    urlWikidata: Option<string>,
    nerdScore: Option<real>)

  const Unset := SpanAttrs(None, None, None, None)

  /** The attributes of the span at `key`; a span never written has every attribute unset. */
  function AttrsAt(spans: map<SpanKey, SpanAttrs>, key: SpanKey): SpanAttrs {
    if key in spans then spans[key] else Unset
  }

  /**
   * The invariant of the attributes this component writes: the URL is set
   * exactly when the identifier is, and is the Wikidata page of it; a score
   * or a description is only ever set on a span that has an identifier.
   */
  predicate LinkedAttrs(a: SpanAttrs) {
    && (a.kbQid.Some? <==> a.urlWikidata.Some?)
    && (a.kbQid.Some? ==> a.urlWikidata.value == WikidataUrlBase + a.kbQid.value)
    && (a.nerdScore.Some? ==> a.kbQid.Some?)
    && (a.description.Some? ==> a.kbQid.Some?)
  }

  predicate Linked(spans: map<SpanKey, SpanAttrs>) {
    forall key :: key in spans ==> LinkedAttrs(spans[key])
  }

  /** A processed document: its text and entities, and what the component attaches to it. */
  class Doc {
    const text: string
    const ents: seq<Ent>
    var annotations: Option<JsonObject>
    var metadata: Option<Metadata>
    var spans: map<SpanKey, SpanAttrs>

    constructor (text: string, ents: seq<Ent>)
      ensures this.text == text && this.ents == ents
      ensures annotations == None && metadata == None && spans == map[]
    {
      this.text := text;
      this.ents := ents;
      annotations := None;
      metadata := None;
      spans := map[];
    }
  }

  // ---------------------------------------------------------------------
  // The attach loop, as a specification
  // ---------------------------------------------------------------------

  /** The state the attach loop threads: span attributes, network trace, and the exception that ended it, if any. */
  datatype LinkState = LinkState(spans: map<SpanKey, SpanAttrs>, trace: seq<Event>, raised: Option<PyException>)

  /** The span a result entity is attached to, when it carries both offsets and an identifier. */
  function Target(e: ResultEntity): Option<SpanKey> {
    if e.offsetStart.Some? && e.offsetEnd.Some? && e.wikidataId.Some? then
      Some(SpanKey(e.offsetStart.value, e.offsetEnd.value))
    else
      None
  }

  /**
   * The description step for the span at `key` with identifier `qid`: a
   * concept look-up whose `KeyError`s (a missing `Retry-After`, `definitions`
   * or `definition`) are swallowed, while every other failure escapes.
   */
  function Describe(settings: Settings, answer: (HttpRequest, nat) -> HttpResponse, st: LinkState, key: SpanKey, qid: string): (r: LinkState)
    ensures |r.trace| > |st.trace| && r.trace[..|st.trace|] == st.trace
    ensures r.trace[|st.trace|] == Sent(ConceptRequest(settings, qid))
    ensures r.raised != st.raised ==> r.raised.Some? && !r.raised.value.KeyError?
  {
    var x := Exchange(answer, ConceptRequest(settings, qid), st.trace);
    var st1 := st.(trace := st.trace + x.events);
    match x.result
    case Failure(e) => if e.KeyError? then st1 else st1.(raised := Some(e))
    case Success(response) =>
      if IsErrorStatus(response.status) then st1.(raised := Some(HttpError(response.status)))
      else match response.body
        case Undecodable => st1.(raised := Some(JsonDecodeError))
        case Decoded(json) =>
          match json.definitions
          case None => st1
          case Some(definitions) =>
            if definitions == [] then st1.(raised := Some(IndexError))
            else match definitions[0].definition
              case None => st1
              case Some(d) => st1.(spans := st1.spans[key := AttrsAt(st1.spans, key).(description := Some(d))])
  }

  /**
   * One iteration of the attach loop. A missing key ends the iteration
   * with the attributes written so far left in place.
   */
  function AttachEntity(settings: Settings, answer: (HttpRequest, nat) -> HttpResponse, st: LinkState, e: ResultEntity): (r: LinkState)
    ensures |r.trace| >= |st.trace| && r.trace[..|st.trace|] == st.trace
    ensures r.raised != st.raised ==> r.raised.Some? && !r.raised.value.KeyError?
  {
    if st.raised.Some? || Target(e).None? then st
    else
      var key := Target(e).value;
      var qid := e.wikidataId.value;
      var linked := AttrsAt(st.spans, key).(kbQid := Some(qid), urlWikidata := Some(WikidataUrlBase + qid));
      if e.nerdSelectionScore.None? then
        st.(spans := st.spans[key := linked])
      else
        var scored := st.(spans := st.spans[key := linked.(nerdScore := e.nerdSelectionScore)]);
        if settings.flagDesc then Describe(settings, answer, scored, key, qid) else scored
  }

  /** The attach loop over the result entities, in order; an escaping exception stops it. */
  function AttachAll(settings: Settings, answer: (HttpRequest, nat) -> HttpResponse, st: LinkState, es: seq<ResultEntity>): (r: LinkState)
    ensures |r.trace| >= |st.trace| && r.trace[..|st.trace|] == st.trace
    ensures r.raised != st.raised ==> r.raised.Some? && !r.raised.value.KeyError?
    decreases |es|
  {
    if es == [] then st
    else
      var st1 := AttachEntity(settings, answer, st, es[0]);
      var r := AttachAll(settings, answer, st1, es[1..]);
      assert r.trace[..|st.trace|] == r.trace[..|st1.trace|][..|st.trace|];
      r
  }

  /** Once an exception has escaped, the remaining entities change nothing. */
  lemma {:induction false} AttachAllAborted(settings: Settings, answer: (HttpRequest, nat) -> HttpResponse, st: LinkState, es: seq<ResultEntity>)
    requires st.raised.Some?
    ensures AttachAll(settings, answer, st, es) == st
    decreases |es|
  {
    if es != [] {
      AttachAllAborted(settings, answer, st, es[1..]);
    }
  }

  /** The description step changes nothing but the description of its own span, and keeps the network trace growing. */
  lemma DescribeTouchesOnlyDescription(settings: Settings, answer: (HttpRequest, nat) -> HttpResponse, st: LinkState, key: SpanKey, qid: string)
    ensures var r := Describe(settings, answer, st, key, qid);
      && |r.trace| >= |st.trace| && r.trace[..|st.trace|] == st.trace
      && (forall k :: k != key ==> AttrsAt(r.spans, k) == AttrsAt(st.spans, k))
      && AttrsAt(r.spans, key).(description := AttrsAt(st.spans, key).description) == AttrsAt(st.spans, key)
      && (r.raised != st.raised ==> r.spans == st.spans)
  {
  }

  /** The description is the first definition of the concept's `definitions`, and nothing is raised. */
  lemma DescribeSetsDefinition(settings: Settings, answer: (HttpRequest, nat) -> HttpResponse, st: LinkState, key: SpanKey, qid: string, d: string)
    requires var x := Exchange(answer, ConceptRequest(settings, qid), st.trace);
      && x.result.Success? && !IsErrorStatus(x.result.value.status) && x.result.value.body.Decoded?
      && x.result.value.body.json.definitions.Some? && |x.result.value.body.json.definitions.value| > 0
      && x.result.value.body.json.definitions.value[0].definition == Some(d)
    ensures var r := Describe(settings, answer, st, key, qid);
      AttrsAt(r.spans, key).description == Some(d) && r.raised == st.raised
  {
  }

  /**
   * A `KeyError` inside the step is swallowed: a missing `definitions` or
   * `definition` key, or a failing `Retry-After` lookup, leaves every span as
   * it was and raises nothing.
   */
  lemma DescribeSwallowsKeyErrors(settings: Settings, answer: (HttpRequest, nat) -> HttpResponse, st: LinkState, key: SpanKey, qid: string)
    ensures var x := Exchange(answer, ConceptRequest(settings, qid), st.trace);
      var r := Describe(settings, answer, st, key, qid);
      var missingKey :=
        || (x.result.Failure? && x.result.error.KeyError?)
        || (&& x.result.Success? && !IsErrorStatus(x.result.value.status) && x.result.value.body.Decoded?
            && var defs := x.result.value.body.json.definitions;
            defs.None? || (|defs.value| > 0 && defs.value[0].definition.None?));
      missingKey ==> r.spans == st.spans && r.raised == st.raised
  {
  }

  /** A 429 without a `Retry-After` header ends the step after one request, with nothing changed and nothing raised. */
  lemma DescribeMissingRetryAfter(settings: Settings, answer: (HttpRequest, nat) -> HttpResponse, st: LinkState, key: SpanKey, qid: string)
    requires var first := answer(ConceptRequest(settings, qid), |st.trace|);
      first.status == 429 && "Retry-After" !in first.headers
    ensures var r := Describe(settings, answer, st, key, qid);
      && r.spans == st.spans && r.raised == st.raised
      && r.trace == st.trace + [Sent(ConceptRequest(settings, qid))]
  {
  }

  /**
   * What escapes the step: a client failure other than `KeyError` (a bad
   * `Retry-After` is a `ValueError`), `HTTPError` for a 4xx/5xx answer, a
   * decode error, and `IndexError` for an empty `definitions` list.
   */
  lemma DescribeEscapes(settings: Settings, answer: (HttpRequest, nat) -> HttpResponse, st: LinkState, key: SpanKey, qid: string)
    requires st.raised.None?
    ensures var x := Exchange(answer, ConceptRequest(settings, qid), st.trace);
      var r := Describe(settings, answer, st, key, qid);
      && (x.result.Failure? ==> r.raised == if x.result.error.KeyError? then None else Some(x.result.error))
      && (x.result.Success? && IsErrorStatus(x.result.value.status) ==> r.raised == Some(HttpError(x.result.value.status)))
      && (x.result.Success? && !IsErrorStatus(x.result.value.status) && x.result.value.body.Undecodable? ==>
            r.raised == Some(JsonDecodeError))
      && ((x.result.Success? && !IsErrorStatus(x.result.value.status) && x.result.value.body.Decoded?
           && x.result.value.body.json.definitions == Some([])) ==> r.raised == Some(IndexError))
  {
  }

  /** With descriptions on and a score present, the step looks up the concept of the entity's identifier. */
  lemma AttachEntityLooksUp(settings: Settings, answer: (HttpRequest, nat) -> HttpResponse, st: LinkState, e: ResultEntity)
    requires st.raised.None? && Target(e).Some? && e.nerdSelectionScore.Some? && settings.flagDesc
    ensures var r := AttachEntity(settings, answer, st, e);
      |r.trace| > |st.trace| && r.trace[|st.trace|] == Sent(ConceptRequest(settings, e.wikidataId.value))
  {
  }

  /**
   * A missing `offsetStart`, `offsetEnd` or `wikidataId` skips the entity; a
   * missing `nerd_selection_score` keeps the identifier and URL just written.
   */
  lemma AttachEntityPartial(settings: Settings, answer: (HttpRequest, nat) -> HttpResponse, st: LinkState, e: ResultEntity)
    requires st.raised.None?
    ensures Target(e).None? ==> AttachEntity(settings, answer, st, e) == st
    ensures Target(e).Some? && e.nerdSelectionScore.None? ==>
      var r := AttachEntity(settings, answer, st, e);
      var a := AttrsAt(r.spans, Target(e).value);
      && r.raised.None? && r.trace == st.trace
      && a.kbQid == e.wikidataId && a.urlWikidata == Some(WikidataUrlBase + e.wikidataId.value)
      && a.nerdScore == AttrsAt(st.spans, Target(e).value).nerdScore
  {
  }

  /** Spans that no result entity targets keep their attributes. */
  lemma {:induction false} AttachFrame(settings: Settings, answer: (HttpRequest, nat) -> HttpResponse, st: LinkState, es: seq<ResultEntity>, key: SpanKey)
    requires forall i :: 0 <= i < |es| ==> Target(es[i]) != Some(key)
    ensures AttrsAt(AttachAll(settings, answer, st, es).spans, key) == AttrsAt(st.spans, key)
    decreases |es|
  {
    if es != [] {
      var st1 := AttachEntity(settings, answer, st, es[0]);
      if st.raised.None? && Target(es[0]).Some? {
        var k0 := Target(es[0]).value;
        var linked := AttrsAt(st.spans, k0).(kbQid := es[0].wikidataId, urlWikidata := Some(WikidataUrlBase + es[0].wikidataId.value));
        var scored := st.(spans := st.spans[k0 := linked.(nerdScore := es[0].nerdSelectionScore)]);
        if es[0].nerdSelectionScore.Some? && settings.flagDesc {
          DescribeTouchesOnlyDescription(settings, answer, scored, k0, es[0].wikidataId.value);
        }
      }
      assert AttrsAt(st1.spans, key) == AttrsAt(st.spans, key);
      AttachFrame(settings, answer, st1, es[1..], key);
    }
  }

  /** Without descriptions the loop sends no request and raises nothing. */
  lemma {:induction false} AttachWithoutDescriptions(settings: Settings, answer: (HttpRequest, nat) -> HttpResponse, st: LinkState, es: seq<ResultEntity>)
    requires !settings.flagDesc && st.raised.None?
    ensures var r := AttachAll(settings, answer, st, es);
      && r.raised.None? && r.trace == st.trace
      && forall k :: AttrsAt(r.spans, k).description == AttrsAt(st.spans, k).description
    decreases |es|
  {
    if es != [] {
      var st1 := AttachEntity(settings, answer, st, es[0]);
      assert st1.raised.None? && st1.trace == st.trace;
      assert forall k :: AttrsAt(st1.spans, k).description == AttrsAt(st.spans, k).description;
      AttachWithoutDescriptions(settings, answer, st1, es[1..]);
    }
  }

  lemma LinkedUpdate(spans: map<SpanKey, SpanAttrs>, key: SpanKey, a: SpanAttrs)
    requires Linked(spans) && LinkedAttrs(a)
    ensures Linked(spans[key := a])
  {
  }

  /** Every step of the loop keeps the identifier, URL, score and description consistent. */
  lemma AttachEntityKeepsLinked(settings: Settings, answer: (HttpRequest, nat) -> HttpResponse, st: LinkState, e: ResultEntity)
    requires Linked(st.spans)
    ensures Linked(AttachEntity(settings, answer, st, e).spans)
  {
    if st.raised.None? && Target(e).Some? {
      var key := Target(e).value;
      var qid := e.wikidataId.value;
      var linked := AttrsAt(st.spans, key).(kbQid := Some(qid), urlWikidata := Some(WikidataUrlBase + qid));
      assert LinkedAttrs(AttrsAt(st.spans, key));
      assert LinkedAttrs(linked);
      LinkedUpdate(st.spans, key, linked);
      var scored := st.(spans := st.spans[key := linked.(nerdScore := e.nerdSelectionScore)]);
      LinkedUpdate(st.spans, key, linked.(nerdScore := e.nerdSelectionScore));
      if e.nerdSelectionScore.Some? && settings.flagDesc {
        var r := Describe(settings, answer, scored, key, qid);
        DescribeTouchesOnlyDescription(settings, answer, scored, key, qid);
        assert AttrsAt(scored.spans, key).kbQid.Some?;
        forall k | k in r.spans ensures LinkedAttrs(r.spans[k]) {
          assert r.spans[k] == AttrsAt(r.spans, k);
          if k != key {
            assert AttrsAt(r.spans, k) == AttrsAt(scored.spans, k);
            assert LinkedAttrs(AttrsAt(scored.spans, k));
          }
        }
      }
    }
  }

  /** The whole loop keeps the attributes consistent. */
  lemma {:induction false} AttachKeepsLinked(settings: Settings, answer: (HttpRequest, nat) -> HttpResponse, st: LinkState, es: seq<ResultEntity>)
    requires Linked(st.spans)
    ensures Linked(AttachAll(settings, answer, st, es).spans)
    decreases |es|
  {
    if es != [] {
      AttachEntityKeepsLinked(settings, answer, st, es[0]);
      AttachKeepsLinked(settings, answer, AttachEntity(settings, answer, st, es[0]), es[1..]);
    }
  }

  /**
   * The identifier of the last entity in `es` that targets `key`: an
   * independent statement of "last write wins" for repeated spans.
   */
  function LastLink(es: seq<ResultEntity>, key: SpanKey): (r: Option<string>)
    ensures r.Some? ==> exists i :: (0 <= i < |es| && Target(es[i]) == Some(key) && es[i].wikidataId == r
      && forall j :: i < j < |es| ==> Target(es[j]) != Some(key))
    ensures r.None? ==> forall i :: 0 <= i < |es| ==> Target(es[i]) != Some(key)
  {
    if es == [] then None
    else
      var later := LastLink(es[1..], key);
      assert forall i :: 1 <= i < |es| ==> es[1..][i - 1] == es[i];
      if later.Some? then
        later
      else if Target(es[0]) == Some(key) then es[0].wikidataId
      else None
  }

  /**
   * When the loop runs to the end, each span carries the identifier of the
   * last entity targeting it, or keeps its earlier one if none does.
   */
  lemma {:induction false} AttachLastWriteWins(settings: Settings, answer: (HttpRequest, nat) -> HttpResponse, st: LinkState, es: seq<ResultEntity>, key: SpanKey)
    requires AttachAll(settings, answer, st, es).raised.None?
    ensures AttrsAt(AttachAll(settings, answer, st, es).spans, key).kbQid ==
      if LastLink(es, key).Some? then LastLink(es, key) else AttrsAt(st.spans, key).kbQid
    decreases |es|
  {
    if es != [] {
      var st1 := AttachEntity(settings, answer, st, es[0]);
      AttachLastWriteWins(settings, answer, st1, es[1..], key);
      AttachEntityQid(settings, answer, st, es[0], key);
    }
  }

  /** One iteration sets the identifier of its own span and of no other. */
  lemma AttachEntityQid(settings: Settings, answer: (HttpRequest, nat) -> HttpResponse, st: LinkState, e: ResultEntity, key: SpanKey)
    requires st.raised.None?
    ensures AttrsAt(AttachEntity(settings, answer, st, e).spans, key).kbQid ==
      if Target(e) == Some(key) then e.wikidataId else AttrsAt(st.spans, key).kbQid
  {
    if Target(e).Some? {
      var k0 := Target(e).value;
      var qid := e.wikidataId.value;
      var linked := AttrsAt(st.spans, k0).(kbQid := Some(qid), urlWikidata := Some(WikidataUrlBase + qid));
      var scored := st.(spans := st.spans[k0 := linked.(nerdScore := e.nerdSelectionScore)]);
      if e.nerdSelectionScore.Some? && settings.flagDesc {
        DescribeTouchesOnlyDescription(settings, answer, scored, k0, qid);
      }
    }
  }

  /**
   * One iteration writes the identifier, the Wikidata URL and, when the
   * entity has one, the selection score to the span it targets.
   */
  lemma AttachEntityWrites(settings: Settings, answer: (HttpRequest, nat) -> HttpResponse, st: LinkState, e: ResultEntity)
    requires st.raised.None? && Target(e).Some?
    ensures var a := AttrsAt(AttachEntity(settings, answer, st, e).spans, Target(e).value);
      && a.kbQid == e.wikidataId
      && a.urlWikidata == Some(WikidataUrlBase + e.wikidataId.value)
      && (e.nerdSelectionScore.Some? ==> a.nerdScore == e.nerdSelectionScore)
  {
    var key := Target(e).value;
    var qid := e.wikidataId.value;
    var linked := AttrsAt(st.spans, key).(kbQid := Some(qid), urlWikidata := Some(WikidataUrlBase + qid));
    var scored := st.(spans := st.spans[key := linked.(nerdScore := e.nerdSelectionScore)]);
    if e.nerdSelectionScore.Some? && settings.flagDesc {
      DescribeTouchesOnlyDescription(settings, answer, scored, key, qid);
    }
  }

  /**
   * One iteration changes the description of the span it targets only by
   * writing the definition its look-up delivered; a swallowed KeyError
   * leaves an earlier entity's description in place.
   */
  lemma AttachEntityDescription(settings: Settings, answer: (HttpRequest, nat) -> HttpResponse, st: LinkState, e: ResultEntity)
    requires st.raised.None? && Target(e).Some?
    ensures var r := AttachEntity(settings, answer, st, e);
      var key := Target(e).value;
      AttrsAt(r.spans, key).description != AttrsAt(st.spans, key).description ==>
        settings.flagDesc && e.nerdSelectionScore.Some? && r.raised.None? && AttrsAt(r.spans, key).description.Some?
  {
  }

  // ---------------------------------------------------------------------
  // The component
  // ---------------------------------------------------------------------

  class EntityFishing {
    const apiEfBase: string
    const language: map<string, string>
    const flagDesc: bool
    const wikidataUrlBase: string

    ghost predicate Valid() {
      EndsWithSlash(apiEfBase) && wikidataUrlBase == WikidataUrlBase
    }

    function Config(): Settings {
      Settings(apiEfBase, language, flagDesc)
    }

    constructor (apiEfBase: string, language: string, descriptionRequired: bool)
      ensures Valid()
      ensures this.apiEfBase == NormaliseBase(apiEfBase)
      ensures this.language == map["lang" := language]
      ensures flagDesc == descriptionRequired
    {
      var base := apiEfBase;
      if !EndsWithSlash(base) {
        base := base + "/";
      }
      this.apiEfBase := base;
      this.language := map["lang" := language];
      flagDesc := descriptionRequired;
      wikidataUrlBase := WikidataUrlBase;
    }

    /** Sends a request, retrying once after the advertised delay if the service answers 429. */
    static method GenericClient(verb: HttpMethod, url: string, params: map<string, string>, files: map<string, Query>, net: Network)
      returns (result: Result<HttpResponse, PyException>)
      modifies net`trace
      ensures var x := Exchange(net.answer, HttpRequest(verb, url, params, files), old(net.trace));
        result == x.result && net.trace == old(net.trace) + x.events
    {
      var request := HttpRequest(verb, url, params, files);
      var response := net.Send(request);
      if response.status == 429 {
        var seconds := RetryAfter(response);
        if seconds.Failure? {
          return Failure(seconds.error);
        }
        net.Sleep(seconds.value);
        response := net.Send(request);
      }
      return Success(response);
    }

    /** GET `<base>kb/concept/<qid>` with `{"lang": language}`. */
    method ConceptLookUp(kbQid: string, net: Network) returns (result: Result<HttpResponse, PyException>)
      modifies net`trace
      ensures var x := Exchange(net.answer, ConceptRequest(Config(), kbQid), old(net.trace));
        result == x.result && net.trace == old(net.trace) + x.events
    {
      var url := apiEfBase + ConceptPath + kbQid;
      result := GenericClient(Get, url, language, map[], net);
    }

    /** POST `<base>disambiguate` with the query as a multipart field. */
    method DisambiguateText(files: map<string, Query>, net: Network) returns (result: Result<HttpResponse, PyException>)
      modifies net`trace
      ensures var x := Exchange(net.answer, DisambiguateRequest(Config(), files), old(net.trace));
        result == x.result && net.trace == old(net.trace) + x.events
    {
      var url := apiEfBase + DisambiguatePath;
      result := GenericClient(Post, url, map[], files, net);
    }

    /** Fetches the description of the span at `key` from its identifier's first definition. */
    method DescribeSpan(doc: Doc, net: Network, key: SpanKey) returns (raised: Option<PyException>)
      requires AttrsAt(doc.spans, key).kbQid.Some?
      modifies doc`spans, net`trace
      ensures LinkState(doc.spans, net.trace, raised) ==
        Describe(Config(), net.answer, LinkState(old(doc.spans), old(net.trace), None), key, AttrsAt(old(doc.spans), key).kbQid.value)
    {
      raised := None;
      var lookup := ConceptLookUp(AttrsAt(doc.spans, key).kbQid.value, net);
      if lookup.Failure? {
        if !lookup.error.KeyError? {
          raised := Some(lookup.error);
        }
        return;
      }
      var response := lookup.value;
      if IsErrorStatus(response.status) {
        return Some(HttpError(response.status));
      }
      if response.body.Undecodable? {
        return Some(JsonDecodeError);
      }
      var json := response.body.json;
      if json.definitions.None? {
        return;
      }
      if json.definitions.value == [] {
        return Some(IndexError);
      }
      var definition := json.definitions.value[0].definition;
      if definition.None? {
        return;
      }
      doc.spans := doc.spans[key := AttrsAt(doc.spans, key).(description := definition)];
    }

    /** One pass of the attach loop: writes identifier, URL, score and description onto the entity's span. */
    method AttachOne(doc: Doc, net: Network, entity: ResultEntity) returns (raised: Option<PyException>)
      requires Valid()
      modifies doc`spans, net`trace
      ensures LinkState(doc.spans, net.trace, raised) ==
        AttachEntity(Config(), net.answer, LinkState(old(doc.spans), old(net.trace), None), entity)
    {
      raised := None;
      if entity.offsetStart.Some? && entity.offsetEnd.Some? && entity.wikidataId.Some? {
        var key := SpanKey(entity.offsetStart.value, entity.offsetEnd.value);
        ghost var linked := AttrsAt(doc.spans, key).(kbQid := entity.wikidataId, urlWikidata := Some(WikidataUrlBase + entity.wikidataId.value));
        doc.spans := doc.spans[key := AttrsAt(doc.spans, key).(kbQid := entity.wikidataId)];
        var qid := AttrsAt(doc.spans, key).kbQid.value;
        doc.spans := doc.spans[key := AttrsAt(doc.spans, key).(urlWikidata := Some(wikidataUrlBase + qid))];
        assert doc.spans == old(doc.spans)[key := linked];
        if entity.nerdSelectionScore.Some? {
          doc.spans := doc.spans[key := AttrsAt(doc.spans, key).(nerdScore := entity.nerdSelectionScore)];
          assert doc.spans == old(doc.spans)[key := linked.(nerdScore := entity.nerdSelectionScore)];
          if flagDesc {
            ghost var scored := LinkState(doc.spans, net.trace, None);
            raised := DescribeSpan(doc, net, key);
            assert LinkState(doc.spans, net.trace, raised) == Describe(Config(), net.answer, scored, key, qid);
          }
        }
      }
    }

    /** The attach loop over the result entities, stopped by the first exception that escapes. */
    method AttachLinks(doc: Doc, net: Network, entities: seq<ResultEntity>) returns (raised: Option<PyException>)
      requires Valid()
      modifies doc`spans, net`trace
      ensures LinkState(doc.spans, net.trace, raised) ==
        AttachAll(Config(), net.answer, LinkState(old(doc.spans), old(net.trace), None), entities)
    {
      ghost var final := AttachAll(Config(), net.answer, LinkState(doc.spans, net.trace, None), entities);
      raised := None;
      var i := 0;
      while i < |entities| && raised.None?
        invariant 0 <= i <= |entities|
        invariant AttachAll(Config(), net.answer, LinkState(doc.spans, net.trace, raised), entities[i..]) == final
      {
        assert entities[i..][1..] == entities[i + 1..];
        raised := AttachOne(doc, net, entities[i]);
        i := i + 1;
      }
      if raised.Some? {
        AttachAllAborted(Config(), net.answer, LinkState(doc.spans, net.trace, raised), entities[i..]);
      }
    }

    /**
     * Processes a document: query the service, record the decoded body and
     * the response metadata, then attach links when the result has entities,
     * the document has entities and the status is 200.
     */
    method Call(doc: Doc, net: Network) returns (raised: Option<PyException>)
      requires Valid()
      modifies doc`annotations, doc`metadata, doc`spans, net`trace
      ensures var x := Exchange(net.answer, DisambiguateRequest(Config(), map["query" := BuildQuery(doc.text, language, doc.ents)]), old(net.trace));
        && (x.result.Failure? ==>
              && raised == Some(x.result.error) && net.trace == old(net.trace) + x.events
              && doc.annotations == old(doc.annotations) && doc.metadata == old(doc.metadata))
        && (x.result.Success? ==>
              && doc.annotations == Some(DecodeOrEmpty(x.result.value.body))
              && doc.metadata == Some(MetadataOf(x.result.value)))
        && (x.result.Success? && DecodeOrEmpty(x.result.value.body).entities.None? ==>
              raised == Some(KeyError("entities")) && net.trace == old(net.trace) + x.events)
    // The attach condition of `__call__` (result entities, document entities, status 200): nothing is written to any span unless it holds.
      ensures var x := Exchange(net.answer, DisambiguateRequest(Config(), map["query" := BuildQuery(doc.text, language, doc.ents)]), old(net.trace));
        var attaches := x.result.Success? && DecodeOrEmpty(x.result.value.body).entities.Some?
          && |DecodeOrEmpty(x.result.value.body).entities.value| > 0 && |doc.ents| > 0 && x.result.value.status == 200;
        && (!attaches ==> doc.spans == old(doc.spans))
        && (!attaches && x.result.Success? && DecodeOrEmpty(x.result.value.body).entities.Some? ==>
              raised.None? && net.trace == old(net.trace) + x.events)
        && (attaches ==>
              (LinkState(doc.spans, net.trace, raised) ==
               AttachAll(Config(), net.answer, LinkState(old(doc.spans), old(net.trace) + x.events, None),
                         DecodeOrEmpty(x.result.value.body).entities.value)))
    {
      var data := map["query" := BuildQuery(doc.text, language, doc.ents)];
      var req := DisambiguateText(data, net);
      if req.Failure? {
        return Some(req.error);
      }
      var response := req.value;
      var res := DecodeOrEmpty(response.body);
      doc.annotations := Some(res);
      doc.metadata := Some(MetadataOf(response));
      if res.entities.None? {
        return Some(KeyError("entities"));
      }
      raised := None;
      if |res.entities.value| > 0 && |doc.ents| > 0 && response.status == 200 {
        raised := AttachLinks(doc, net, res.entities.value);
      }
    }
  }
}

=== FILE: fishing_wire.dfy ===
/**
 * What travels between the spaCy component and the entity-fishing service:
 * requests, responses, the decoded JSON bodies (seen through the keys the
 * component reads), the metadata kept about a response, the `Retry-After`
 * header, and the network itself as an oracle that answers each request
 * and records what was sent and how long the client slept.
 */
module FishingWire {
  import opened Wrappers

  // ---------------------------------------------------------------------
  // The disambiguation query (the `query` field of the POST request)
  // ---------------------------------------------------------------------

  /** One mention sent to the service: its text and its token offsets. */
  datatype EntityRecord = EntityRecord(rawName: string, offsetStart: int, offsetEnd: int)

  /** The query dictionary built by the component, kept as a value rather than as text. */
  datatype Query = Query(
    text: string,
    language: map<string, string>,
    entities: seq<EntityRecord>,
    mentions: seq<string>,
    customisation: string)

  // ---------------------------------------------------------------------
  // Decoded JSON bodies
  // ---------------------------------------------------------------------

  /** An entity of the disambiguation result; a `None` field is a key absent from the JSON object. */
  datatype ResultEntity = ResultEntity(
    offsetStart: Option<int>,
    offsetEnd: Option<int>,
    wikidataId: Option<string>,
    nerdSelectionScore: Option<real>)

  /** One element of the `definitions` list of a concept look-up result. */
  datatype Definition = Definition(definition: Option<string>)

  /**
   * A decoded JSON object, projected onto the two keys the component reads:
   * `entities` (disambiguation) and `definitions` (concept look-up).
   */
  datatype JsonObject = JsonObject(entities: Option<seq<ResultEntity>>, definitions: Option<seq<Definition>>)

  /** The empty dictionary `{}`. */
  const EmptyObject := JsonObject(None, None)

  /** A response body either decodes to a JSON object or does not decode at all. */
  datatype Body = Undecodable | Decoded(json: JsonObject)

  // ---------------------------------------------------------------------
  // Requests, responses, exceptions
  // ---------------------------------------------------------------------

  datatype HttpMethod = Get | Post

  /** A request: method, URL, query-string parameters and multipart fields. */
  datatype HttpRequest = HttpRequest(
    verb: HttpMethod,
    url: string,
    params: map<string, string>,
    files: map<string, Query>)

  datatype HttpResponse = HttpResponse(
    status: int,
    reason: string,
    encoding: Option<string>,
    headers: map<string, string>,
    body: Body)

  /** The Python exceptions the component can raise or catch. */
  datatype PyException =
    | KeyError(key: string)
    | ValueError
    | HttpError(status: int)
    | JsonDecodeError
    | IndexError

  /** What the network saw: a request sent, or the client sleeping for some seconds. */
  datatype Event = Sent(request: HttpRequest) | Slept(seconds: nat)

  /** The number of requests in a trace. */
  function Requests(t: seq<Event>): (n: nat)
    ensures n <= |t|
  {
    if t == [] then 0 else Requests(t[..|t| - 1]) + (if t[|t| - 1].Sent? then 1 else 0)
  }

  /**
   * The service and the wire. `answer(r, n)` is the response to request `r`
   * when it is the `n`-th event of the trace; the same request may be
   * answered differently at different times (a 429 followed by a 200).
   */
  class Network {
    const answer: (HttpRequest, nat) -> HttpResponse
    var trace: seq<Event>

    constructor (answer: (HttpRequest, nat) -> HttpResponse)
      ensures this.answer == answer && trace == []
    {
      this.answer := answer;
      trace := [];
    }

    /** Sends one request and receives the service's response. */
    method Send(request: HttpRequest) returns (response: HttpResponse)
      modifies this`trace
      ensures trace == old(trace) + [Sent(request)]
      ensures response == answer(request, |old(trace)|)
    {
      response := answer(request, |trace|);
      trace := trace + [Sent(request)];
    }

    /** Blocks for the given number of seconds. */
    method Sleep(seconds: nat)
      modifies this`trace
      ensures trace == old(trace) + [Slept(seconds)]
    {
      trace := trace + [Slept(seconds)];
    }
  }

  // ---------------------------------------------------------------------
  // Decoding and metadata
  // ---------------------------------------------------------------------

  /** `response.json()` with the decode error replaced by `{}`. */
  function DecodeOrEmpty(body: Body): (r: JsonObject)
    ensures r == EmptyObject <==> body.Undecodable? || body.json == EmptyObject
    ensures body.Decoded? ==> r == body.json
  {
    match body
    case Undecodable => EmptyObject
    case Decoded(json) => json
  }

  /** The status codes for which `raise_for_status` raises (client and server errors). */
  predicate IsErrorStatus(status: int) {
    400 <= status < 600
  }

  /** What the component records about a response: status code, reason, `ok` and encoding. */
  datatype Metadata = Metadata(statusCode: int, reason: string, ok: bool, encoding: Option<string>)

  /** The metadata of a response; `ok` holds exactly when `raise_for_status` would not raise. */
  function MetadataOf(response: HttpResponse): (m: Metadata)
    ensures m.ok <==> !IsErrorStatus(response.status)
    ensures m.statusCode == response.status && m.reason == response.reason && m.encoding == response.encoding
  {
    Metadata(response.status, response.reason, !IsErrorStatus(response.status), response.encoding)
  }

  /** The metadata does not depend on the body, so it is recorded whether or not the body decodes. */
  lemma MetadataIgnoresBody(response: HttpResponse, body: Body)
    ensures MetadataOf(response.(body := body)) == MetadataOf(response)
  {
  }

  // ---------------------------------------------------------------------
  // The Retry-After header: `int(...)` over ASCII decimal text
  // ---------------------------------------------------------------------

  predicate IsDigit(c: char) {
    '0' <= c <= '9'
  }

  predicate AllDigits(s: string) {
    forall i :: 0 <= i < |s| ==> IsDigit(s[i])
  }

  /** The value of a string of decimal digits, most significant first. */
  function DigitsValue(s: string): nat
    requires AllDigits(s)
  {
    if s == [] then 0 else DigitsValue(s[..|s| - 1]) * 10 + (s[|s| - 1] as int - '0' as int)
  }

  /** The text `int` reads in this model: an optional sign followed by one or more ASCII digits. */
  predicate IsIntLiteral(s: string) {
    (s != [] && AllDigits(s)) || (|s| >= 2 && (s[0] == '+' || s[0] == '-') && AllDigits(s[1..]))
  }

  /** `int(s)` for an optional sign followed by one or more ASCII digits; anything else is a `ValueError`. */
  function ParseInt(s: string): (r: Option<int>)
    ensures r.Some? <==> IsIntLiteral(s)
    ensures s != [] && AllDigits(s) ==> r == Some(DigitsValue(s))
    ensures |s| >= 2 && s[0] == '+' && AllDigits(s[1..]) ==> r == Some(DigitsValue(s[1..]))
    ensures |s| >= 2 && s[0] == '-' && AllDigits(s[1..]) ==> r == Some(0 - DigitsValue(s[1..]) as int)
    ensures r.Some? && r.value < 0 ==> s[0] == '-'
  {
    if s != [] && (s[0] == '+' || s[0] == '-') then
      var digits := s[1..];
      if digits != [] && AllDigits(digits) then
        var magnitude: int := DigitsValue(digits);
        Some(if s[0] == '-' then -magnitude else magnitude)
      else
        None
    else if s != [] && AllDigits(s) then
      Some(DigitsValue(s))
    else
      None
  }

  /** The decimal text of a natural number, as a server writes it in `Retry-After`. */
  function Decimal(n: nat): (s: string)
    ensures s != [] && AllDigits(s)
  {
    if n < 10 then ['0' + n as char] else Decimal(n / 10) + ['0' + (n % 10) as char]
  }

  lemma {:induction false} DecimalValue(n: nat)
    ensures DigitsValue(Decimal(n)) == n
  {
    if n >= 10 {
      var s := Decimal(n);
      assert s[..|s| - 1] == Decimal(n / 10);
      DecimalValue(n / 10);
    }
  }

  /** Parsing the decimal text of `n` gives `n` back. */
  lemma ParseDecimal(n: nat)
    ensures ParseInt(Decimal(n)) == Some(n)
  {
    DecimalValue(n);
  }

  /**
   * The number of seconds to sleep before retrying a 429 response:
   * a missing header is a `KeyError`, a header `int` cannot read and a
   * negative number (refused by `time.sleep`) are `ValueError`s.
   */
  function RetryAfter(response: HttpResponse): (r: Result<nat, PyException>)
    ensures "Retry-After" !in response.headers ==> r == Failure(KeyError("Retry-After"))
    ensures "Retry-After" in response.headers ==>
      var parsed := ParseInt(response.headers["Retry-After"]);
      && (r.Success? <==> parsed.Some? && parsed.value >= 0)
      && (r.Success? ==> r.value == parsed.value)
      && (r.Failure? ==> r.error == ValueError)
  {
    if "Retry-After" !in response.headers then
      Failure(KeyError("Retry-After"))
    else
      match ParseInt(response.headers["Retry-After"])
      case None => Failure(ValueError)
      case Some(n) => if n < 0 then Failure(ValueError) else Success(n)
  }

  /** A server that announces `Retry-After: n` is waited for exactly `n` seconds. */
  lemma RetryAfterHonoured(response: HttpResponse, n: nat)
    requires "Retry-After" in response.headers && response.headers["Retry-After"] == Decimal(n)
    ensures RetryAfter(response) == Success(n)
  {
    ParseDecimal(n);
  }
}

=== FILE: process_long_text.dfy ===
/**
 * The long-text example: the text is cut into lines, the lines are cleaned
 * and joined with single spaces into one document, named entities are found
 * sentence by sentence, and each entity's character offsets are moved from
 * its sentence into the joined document.
 */
module LongText {

  // ---------------------------------------------------------------------
  // `str.split(sep)` and `sep.join(...)`
  // ---------------------------------------------------------------------

  /** `s.split(sep)`: the pieces between separators, empty ones included. */
  function Split(s: string, sep: char): (pieces: seq<string>)
    ensures |pieces| >= 1
    ensures forall k :: 0 <= k < |pieces| ==> sep !in pieces[k]
    decreases |s|
  {
    if s == [] then [""]
    else
      var rest := Split(s[1..], sep);
      if s[0] == sep then [""] + rest
      else
        assert forall k :: 1 <= k < |rest| ==> rest[1..][k - 1] == rest[k];
        [[s[0]] + rest[0]] + rest[1..]
  }

  /** `sep.join(pieces)`. */
  function Join(pieces: seq<string>, sep: string): string
    decreases |pieces|
  {
    if pieces == [] then ""
    else if |pieces| == 1 then pieces[0]
    else pieces[0] + sep + Join(pieces[1..], sep)
  }

  /** Joining the pieces of a split with the separator gives the text back. */
  lemma {:induction false} JoinSplit(s: string, sep: char)
    ensures Join(Split(s, sep), [sep]) == s
    decreases |s|
  {
    if s != [] {
      var rest := Split(s[1..], sep);
      JoinSplit(s[1..], sep);
      if s[0] == sep {
        assert ([""] + rest)[1..] == rest;
      } else {
        var pieces := [[s[0]] + rest[0]] + rest[1..];
        assert pieces[1..] == rest[1..];
        if |rest| > 1 {
          assert Join(rest, [sep]) == rest[0] + [sep] + Join(rest[1..], [sep]);
        }
      }
    }
  }

  /** A piece without separators, split after it, stays in the first piece. */
  lemma {:induction false} SplitPrefix(w: string, t: string, sep: char)
    requires sep !in w
    ensures Split(w + t, sep) == [w + Split(t, sep)[0]] + Split(t, sep)[1..]
    decreases |w|
  {
    if w == [] {
      assert w + t == t;
      assert w + Split(t, sep)[0] == Split(t, sep)[0];
    } else {
      var pieces := Split(t, sep);
      assert (w + t)[1..] == w[1..] + t;
      assert (w + t)[0] == w[0] && w[0] in w;
      SplitPrefix(w[1..], t, sep);
      var rest := Split(w[1..] + t, sep);
      assert Split(w + t, sep) == [[w[0]] + rest[0]] + rest[1..];
      assert rest[1..] == pieces[1..];
      assert [w[0]] + rest[0] == w + pieces[0];
    }
  }

  /** A leading separator splits off an empty first piece. */
  lemma SplitAtSeparator(t: string, sep: char)
    ensures Split([sep] + t, sep) == [""] + Split(t, sep)
  {
    assert ([sep] + t)[1..] == t;
  }

  /** Splitting pieces joined by a separator none of them contains gives the pieces back. */
  lemma {:induction false} SplitJoin(pieces: seq<string>, sep: char)
    requires |pieces| >= 1
    requires forall k :: 0 <= k < |pieces| ==> sep !in pieces[k]
    ensures Split(Join(pieces, [sep]), sep) == pieces
    decreases |pieces|
  {
    if |pieces| == 1 {
      SplitPrefix(pieces[0], "", sep);
      assert pieces[0] + "" == pieces[0];
    } else {
      var rest := Join(pieces[1..], [sep]);
      SplitJoin(pieces[1..], sep);
      assert pieces[0] + [sep] + rest == pieces[0] + ([sep] + rest);
      SplitPrefix(pieces[0], [sep] + rest, sep);
      SplitAtSeparator(rest, sep);
      assert pieces[0] + Split([sep] + rest, sep)[0] == pieces[0];
      assert pieces == [pieces[0]] + pieces[1..];
    }
  }

  // ---------------------------------------------------------------------
  // `str.strip()`
  // ---------------------------------------------------------------------

  /** The characters for which Python's `str.isspace()` holds. */
  predicate IsSpace(c: char) {
    var n := c as int;
    || n == 0x20 || 0x09 <= n <= 0x0D || 0x1C <= n <= 0x1F || n == 0x85 || n == 0xA0 || n == 0x1680
    || 0x2000 <= n <= 0x200A || n == 0x2028 || n == 0x2029 || n == 0x202F || n == 0x205F || n == 0x3000
  }

  predicate AllSpace(s: string) {
    forall k :: 0 <= k < |s| ==> IsSpace(s[k])
  }

  /** Neither starts nor ends with whitespace. */
  predicate IsStripped(s: string) {
    s == [] || (!IsSpace(s[0]) && !IsSpace(s[|s| - 1]))
  }

  /** The number of whitespace characters at the start of `s`. */
  function Leading(s: string): (n: nat)
    ensures n <= |s| && (forall k :: 0 <= k < n ==> IsSpace(s[k])) && (n < |s| ==> !IsSpace(s[n]))
  {
    if s != [] && IsSpace(s[0]) then
      var n := 1 + Leading(s[1..]);
      assert forall k :: 1 <= k < |s| ==> s[k] == s[1..][k - 1];
      n
    else 0
  }

  /** The number of whitespace characters at the end of `s`. */
  function Trailing(s: string): (n: nat)
    ensures n <= |s| && (forall k :: |s| - n <= k < |s| ==> IsSpace(s[k])) && (n < |s| ==> !IsSpace(s[|s| - n - 1]))
  {
    if s != [] && IsSpace(s[|s| - 1]) then
      var t := s[..|s| - 1];
      assert forall k :: 0 <= k < |t| ==> t[k] == s[k];
      1 + Trailing(t)
    else 0
  }

  /**
   * `s.strip()`: the part of `s` between its leading and its trailing
   * whitespace, which neither starts nor ends with whitespace.
   */
  function Strip(s: string): (r: string)
    ensures IsStripped(r)
    ensures AllSpace(s) ==> r == []
  {
    var i := Leading(s);
    var t := s[i..];
    var m := Trailing(t);
    var j := |s| - m;
    assert i < j ==> s[j - 1] == t[|t| - m - 1];
    assert i < |s| ==> !IsSpace(s[i]);
    s[i..j]
  }

  /**
   * What `strip` removes is whitespace, from both ends only: the result is
   * the slice of `s` between a whitespace prefix and a whitespace suffix.
   */
  lemma StripTrims(s: string)
    ensures exists i, j :: 0 <= i <= j <= |s| && Strip(s) == s[i..j] && AllSpace(s[..i]) && AllSpace(s[j..])
  {
    var i := Leading(s);
    var t := s[i..];
    var m := Trailing(t);
    var j := |s| - m;
    assert forall k :: 0 <= k < i ==> s[..i][k] == s[k];
    assert forall k :: 0 <= k < |s| - j ==> s[j..][k] == t[j - i + k];
    assert Strip(s) == s[i..j];
  }

  // ---------------------------------------------------------------------
  // `text_preprocessor`
  // ---------------------------------------------------------------------

  /** The pieces that are not exactly "" (the test runs before stripping). */
  function NonEmptyPieces(pieces: seq<string>): (r: seq<string>)
    ensures |r| <= |pieces|
    ensures forall k :: 0 <= k < |r| ==> r[k] != "" && r[k] in pieces
  {
    if pieces == [] then []
    else (if pieces[0] != "" then [pieces[0]] else []) + NonEmptyPieces(pieces[1..])
  }

  /** Only the pieces that are exactly "" are dropped: every other piece is kept, as often as it occurs. */
  lemma {:induction false} NonEmptyPiecesDropsOnlyEmpty(pieces: seq<string>)
    ensures multiset(NonEmptyPieces(pieces)) == multiset(pieces)["" := 0]
  {
    if pieces != [] {
      var rest := pieces[1..];
      NonEmptyPiecesDropsOnlyEmpty(rest);
      assert pieces == [pieces[0]] + rest;
      assert multiset(pieces) == multiset{pieces[0]} + multiset(rest);
      DropEmptyAfterAdd(pieces[0], multiset(rest));
      if pieces[0] != "" {
        assert NonEmptyPieces(pieces) == [pieces[0]] + NonEmptyPieces(rest);
      }
    }
  }

  /** Removing every "" from a multiset with one more piece. */
  lemma DropEmptyAfterAdd(p: string, m: multiset<string>)
    ensures (multiset{p} + m)["" := 0] == if p == "" then m["" := 0] else multiset{p} + m["" := 0]
  {
    var dropped := (multiset{p} + m)["" := 0];
    var expected := if p == "" then m["" := 0] else multiset{p} + m["" := 0];
    assert forall q :: dropped[q] == expected[q];
  }

  /**
   * The filter works piece by piece, in order: the kept pieces of a
   * concatenation are the kept pieces of its first part followed by those
   * of its second.
   */
  lemma {:induction false} NonEmptyPiecesAppend(a: seq<string>, b: seq<string>)
    ensures NonEmptyPieces(a + b) == NonEmptyPieces(a) + NonEmptyPieces(b)
  {
    if a == [] {
      assert a + b == b;
    } else {
      var head := if a[0] != "" then [a[0]] else [];
      assert (a + b)[0] == a[0];
      assert (a + b)[1..] == a[1..] + b;
      NonEmptyPiecesAppend(a[1..], b);
      AppendAssoc(head, NonEmptyPieces(a[1..]), NonEmptyPieces(b));
    }
  }

  /** The comprehension `[f(p) for p in pieces if p != ""]`. */
  function MapKept(f: string -> string, pieces: seq<string>): seq<string>
  {
    if pieces == [] then []
    else (if pieces[0] != "" then [f(pieces[0])] else []) + MapKept(f, pieces[1..])
  }

  /** The cleaned lines of a text, in order. */
  function TextPreprocessor(text: string): (sentences: seq<string>)
    ensures forall k :: 0 <= k < |sentences| ==> IsStripped(sentences[k])
  {
    MapKeptKeepsOrder(Strip, Split(text, '\n'));
    MapKept(Strip, Split(text, '\n'))
  }

  /**
   * The comprehension keeps the non-empty pieces, in order, and applies `f`
   * to each: one output line per piece that is not exactly "".
   */
  lemma MapKeptKeepsOrder(f: string -> string, pieces: seq<string>)
    ensures |MapKept(f, pieces)| == |NonEmptyPieces(pieces)|
    ensures forall k :: 0 <= k < |MapKept(f, pieces)| ==> MapKept(f, pieces)[k] == f(NonEmptyPieces(pieces)[k])
  {
    MapKeptLength(f, pieces);
    forall k | 0 <= k < |MapKept(f, pieces)|
      ensures MapKept(f, pieces)[k] == f(NonEmptyPieces(pieces)[k])
    {
      MapKeptAt(f, pieces, k);
    }
  }

  lemma {:induction false} MapKeptLength(f: string -> string, pieces: seq<string>)
    ensures |MapKept(f, pieces)| == |NonEmptyPieces(pieces)|
  {
    if pieces != [] {
      MapKeptLength(f, pieces[1..]);
    }
  }

  lemma {:induction false} MapKeptAt(f: string -> string, pieces: seq<string>, k: nat)
    requires k < |MapKept(f, pieces)|
    ensures |MapKept(f, pieces)| == |NonEmptyPieces(pieces)|
    ensures MapKept(f, pieces)[k] == f(NonEmptyPieces(pieces)[k])
  {
    MapKeptLength(f, pieces);
    var rest := pieces[1..];
    MapKeptLength(f, rest);
    if pieces[0] == "" {
      assert MapKept(f, pieces) == MapKept(f, rest);
      assert NonEmptyPieces(pieces) == NonEmptyPieces(rest);
      MapKeptAt(f, rest, k);
    } else if k > 0 {
      assert MapKept(f, pieces)[k] == MapKept(f, rest)[k - 1];
      assert NonEmptyPieces(pieces)[k] == NonEmptyPieces(rest)[k - 1];
      MapKeptAt(f, rest, k - 1);
    } else {
      assert NonEmptyPieces(pieces)[0] == pieces[0];
    }
  }

  /** Stripping a line without a line break leaves it without one. */
  lemma StripKeepsNoBreak(s: string)
    requires '\n' !in s
    ensures '\n' !in Strip(s)
  {
    StripTrims(s);
    var i, j :| 0 <= i <= j <= |s| && Strip(s) == s[i..j];
    assert forall c :: c in s[i..j] ==> c in s;
  }

  /** The cleaned lines are the stripped non-empty lines of the text, in order, and hold no line break. */
  lemma TextPreprocessorLines(text: string)
    ensures var sentences := TextPreprocessor(text);
      && |sentences| == |NonEmptyPieces(Split(text, '\n'))|
      && (forall k :: 0 <= k < |sentences| ==> sentences[k] == Strip(NonEmptyPieces(Split(text, '\n'))[k]))
      && (forall k :: 0 <= k < |sentences| ==> '\n' !in sentences[k])
  {
    var pieces := Split(text, '\n');
    MapKeptKeepsOrder(Strip, pieces);
    forall k | 0 <= k < |NonEmptyPieces(pieces)|
      ensures '\n' !in Strip(NonEmptyPieces(pieces)[k])
    {
      StripKeepsNoBreak(NonEmptyPieces(pieces)[k]);
    }
  }

  /**
   * The emptiness test runs before stripping, so a line made only of
   * whitespace is not dropped: it becomes an empty sentence in its place.
   */
  lemma BlankLineKept(text: string, k: nat)
    requires k < |NonEmptyPieces(Split(text, '\n'))|
    requires AllSpace(NonEmptyPieces(Split(text, '\n'))[k])
    ensures k < |TextPreprocessor(text)| && TextPreprocessor(text)[k] == ""
  {
    MapKeptKeepsOrder(Strip, Split(text, '\n'));
  }

  // ---------------------------------------------------------------------
  // `CustomNer.__call__`: entity offsets in the joined text
  // ---------------------------------------------------------------------

  /** An entity found in one sentence: its text, its character start in the sentence, its label. */
  datatype SentEnt = SentEnt(text: string, startChar: int, tag: string)

  /** A character span of the joined document with its label (`label_`). */
  datatype CharSpan = CharSpan(start: int, end: int, tag: string)

  /** The span of `e` once its sentence starts at `startSentence`. */
  function Recompute(startSentence: int, e: SentEnt): CharSpan {
    var start := startSentence + e.startChar;
    CharSpan(start, start + |e.text|, e.tag)
  }

  /** The spans of one sentence's entities, in order. */
  function SentenceSpans(startSentence: int, ents: seq<SentEnt>): seq<CharSpan> {
    if ents == [] then [] else [Recompute(startSentence, ents[0])] + SentenceSpans(startSentence, ents[1..])
  }

  /** The spans of all entities, sentence by sentence, the first sentence starting at `startSentence`. */
  function SpansFrom(sentences: seq<string>, ner: string -> seq<SentEnt>, startSentence: int): seq<CharSpan>
  {
    if sentences == [] then []
    else SentenceSpans(startSentence, ner(sentences[0])) + SpansFrom(sentences[1..], ner, startSentence + |sentences[0]| + 1)
  }

  /** All entities of all sentences, sentence by sentence. */
  function AllEnts(sentences: seq<string>, ner: string -> seq<SentEnt>): seq<SentEnt> {
    if sentences == [] then [] else ner(sentences[0]) + AllEnts(sentences[1..], ner)
  }

  /** The offset of sentence `i`: the sum over the earlier sentences of their length plus one. */
  function SentenceStart(sentences: seq<string>, i: nat): nat
    requires i <= |sentences|
  {
    if i == 0 then 0 else |sentences[0]| + 1 + SentenceStart(sentences[1..], i - 1)
  }

  /** The number of entities in the sentences before sentence `i`. */
  function EntsBefore(sentences: seq<string>, ner: string -> seq<SentEnt>, i: nat): nat
    requires i <= |sentences|
  {
    if i == 0 then 0 else |ner(sentences[0])| + EntsBefore(sentences[1..], ner, i - 1)
  }

  /** The offset of the next sentence is the offset of this one plus its length plus the joining space. */
  lemma {:induction false} SentenceStartStep(sentences: seq<string>, i: nat)
    requires i < |sentences|
    ensures SentenceStart(sentences, i + 1) == SentenceStart(sentences, i) + |sentences[i]| + 1
  {
    if i > 0 {
      SentenceStartStep(sentences[1..], i - 1);
    }
  }

  /** Sentence `i` of the joined text starts at `SentenceStart(sentences, i)`. */
  lemma {:induction false} SentenceInJoin(sentences: seq<string>, i: nat)
    requires i < |sentences|
    ensures SentenceStart(sentences, i) + |sentences[i]| <= |Join(sentences, " ")|
    ensures Join(sentences, " ")[SentenceStart(sentences, i)..SentenceStart(sentences, i) + |sentences[i]|] == sentences[i]
  {
    var joined := Join(sentences, " ");
    if i == 0 {
      if |sentences| > 1 {
        var tail := " " + Join(sentences[1..], " ");
        assert joined == sentences[0] + tail;
        assert joined[..|sentences[0]|] == sentences[0];
      }
    } else {
      var head := sentences[0] + " ";
      var rest := Join(sentences[1..], " ");
      var start := SentenceStart(sentences[1..], i - 1);
      assert sentences[1..][i - 1] == sentences[i];
      SentenceInJoin(sentences[1..], i - 1);
      assert joined == head + rest;
      SliceOfAppend(head, rest, |head| + start, |head| + start + |sentences[i]|);
    }
  }

  /** A slice lying wholly in the second part of a concatenation is a slice of that part. */
  lemma SliceOfAppend(a: string, b: string, lo: nat, hi: nat)
    requires |a| <= lo <= hi <= |a| + |b|
    ensures (a + b)[lo..hi] == b[lo - |a|..hi - |a|]
  {
    assert forall k :: 0 <= k < hi - lo ==> (a + b)[lo..hi][k] == b[lo - |a| + k];
  }

  lemma {:induction false} SentenceSpansAt(startSentence: int, ents: seq<SentEnt>, j: nat)
    requires j < |ents|
    ensures |SentenceSpans(startSentence, ents)| == |ents|
    ensures SentenceSpans(startSentence, ents)[j] == Recompute(startSentence, ents[j])
  {
    if j > 0 {
      SentenceSpansAt(startSentence, ents[1..], j - 1);
    } else if |ents| > 1 {
      SentenceSpansAt(startSentence, ents[1..], 0);
    }
  }

  lemma {:induction false} SentenceSpansLength(startSentence: int, ents: seq<SentEnt>)
    ensures |SentenceSpans(startSentence, ents)| == |ents|
  {
    if ents != [] {
      SentenceSpansLength(startSentence, ents[1..]);
    }
  }

  lemma {:induction false} SpansFromLength(sentences: seq<string>, ner: string -> seq<SentEnt>, startSentence: int)
    ensures |SpansFrom(sentences, ner, startSentence)| == |AllEnts(sentences, ner)|
  {
    if sentences != [] {
      SentenceSpansLength(startSentence, ner(sentences[0]));
      SpansFromLength(sentences[1..], ner, startSentence + |sentences[0]| + 1);
    }
  }

  /**
   * Entity `j` of sentence `i` gives the span at position `EntsBefore + j`:
   * it starts at the sentence's offset plus the entity's start in the
   * sentence, is as long as the entity's text, and keeps its label.
   */
  lemma {:induction false} SpanAt(sentences: seq<string>, ner: string -> seq<SentEnt>, startSentence: int, i: nat, j: nat)
    requires i < |sentences| && j < |ner(sentences[i])|
    ensures EntsBefore(sentences, ner, i) + j < |SpansFrom(sentences, ner, startSentence)|
    ensures SpansFrom(sentences, ner, startSentence)[EntsBefore(sentences, ner, i) + j]
      == Recompute(startSentence + SentenceStart(sentences, i), ner(sentences[i])[j])
  {
    var first := SentenceSpans(startSentence, ner(sentences[0]));
    var next := startSentence + |sentences[0]| + 1;
    SentenceSpansLength(startSentence, ner(sentences[0]));
    if i == 0 {
      SentenceSpansAt(startSentence, ner(sentences[0]), j);
    } else {
      SpanAt(sentences[1..], ner, next, i - 1, j);
    }
  }

  /** The spans are one per entity, in the entities' order, each as long as its entity's text. */
  lemma SpansMatchEntities(sentences: seq<string>, ner: string -> seq<SentEnt>, startSentence: int)
    ensures |SpansFrom(sentences, ner, startSentence)| == |AllEnts(sentences, ner)|
    ensures forall k :: 0 <= k < |AllEnts(sentences, ner)| ==>
      var sp := SpansFrom(sentences, ner, startSentence)[k];
      sp.end - sp.start == |AllEnts(sentences, ner)[k].text| && sp.tag == AllEnts(sentences, ner)[k].tag
  {
    SpansFromLength(sentences, ner, startSentence);
    forall k | 0 <= k < |AllEnts(sentences, ner)|
      ensures var sp := SpansFrom(sentences, ner, startSentence)[k];
        sp.end - sp.start == |AllEnts(sentences, ner)[k].text| && sp.tag == AllEnts(sentences, ner)[k].tag
    {
      SpanMatchesEntity(sentences, ner, startSentence, k);
    }
  }

  lemma {:induction false} SpanMatchesEntity(sentences: seq<string>, ner: string -> seq<SentEnt>, startSentence: int, k: nat)
    requires k < |AllEnts(sentences, ner)|
    ensures |SpansFrom(sentences, ner, startSentence)| == |AllEnts(sentences, ner)|
    ensures var sp := SpansFrom(sentences, ner, startSentence)[k];
      sp.end - sp.start == |AllEnts(sentences, ner)[k].text| && sp.tag == AllEnts(sentences, ner)[k].tag
  {
    SpansFromLength(sentences, ner, startSentence);
    var ents := ner(sentences[0]);
    SentenceSpansLength(startSentence, ents);
    if k < |ents| {
      SentenceSpansAt(startSentence, ents, k);
    } else {
      SpanMatchesEntity(sentences[1..], ner, startSentence + |sentences[0]| + 1, k - |ents|);
    }
  }

  /** The entity's text sits in its sentence at its start offset. */
  predicate Faithful(sentence: string, e: SentEnt) {
    0 <= e.startChar && e.startChar + |e.text| <= |sentence| && sentence[e.startChar..e.startChar + |e.text|] == e.text
  }

  /** Round trip: the joined text, sliced at a recomputed span, is the entity's text. */
  lemma RoundTrip(sentences: seq<string>, ner: string -> seq<SentEnt>, i: nat, j: nat)
    requires i < |sentences| && j < |ner(sentences[i])|
    requires Faithful(sentences[i], ner(sentences[i])[j])
    ensures EntsBefore(sentences, ner, i) + j < |SpansFrom(sentences, ner, 0)|
    ensures var sp := SpansFrom(sentences, ner, 0)[EntsBefore(sentences, ner, i) + j];
      0 <= sp.start <= sp.end <= |Join(sentences, " ")| && Join(sentences, " ")[sp.start..sp.end] == ner(sentences[i])[j].text
  {
    SpanAt(sentences, ner, 0, i, j);
    SentenceInJoin(sentences, i);
    var e := ner(sentences[i])[j];
    var s0 := SentenceStart(sentences, i);
    var joined := Join(sentences, " ");
    assert joined[s0..s0 + |sentences[i]|] == sentences[i];
    SliceOfSlice(joined, s0, s0 + |sentences[i]|, e.startChar, e.startChar + |e.text|);
  }

  /** A slice of a slice is a slice of the whole. */
  lemma SliceOfSlice(s: string, a: nat, b: nat, c: nat, d: nat)
    requires a <= b <= |s| && c <= d <= b - a
    ensures s[a..b][c..d] == s[a + c..a + d]
  {
    assert forall k :: 0 <= k < d - c ==> s[a..b][c..d][k] == s[a + c + k];
  }

  lemma SpansFromStep(before: seq<CharSpan>, sentences: seq<string>, ner: string -> seq<SentEnt>, i: nat, startSentence: int)
    requires i < |sentences|
    ensures before + SpansFrom(sentences[i..], ner, startSentence) ==
      (before + SentenceSpans(startSentence, ner(sentences[i]))) + SpansFrom(sentences[i + 1..], ner, startSentence + |sentences[i]| + 1)
  {
    assert sentences[i..][1..] == sentences[i + 1..];
    AppendAssoc(before, SentenceSpans(startSentence, ner(sentences[i])), SpansFrom(sentences[i + 1..], ner, startSentence + |sentences[i]| + 1));
  }

  lemma SentenceSpansStep(spans: seq<CharSpan>, startSentence: int, ents: seq<SentEnt>, j: nat)
    requires j < |ents|
    ensures spans + SentenceSpans(startSentence, ents[j..]) ==
      (spans + [Recompute(startSentence, ents[j])]) + SentenceSpans(startSentence, ents[j + 1..])
  {
    assert ents[j..][1..] == ents[j + 1..];
    AppendAssoc(spans, [Recompute(startSentence, ents[j])], SentenceSpans(startSentence, ents[j + 1..]));
  }

  lemma AppendAssoc<T>(a: seq<T>, b: seq<T>, c: seq<T>)
    ensures (a + b) + c == a + (b + c)
  {
  }

  /**
   * The inner loop of `CustomNer.__call__`: appends the recomputed span of
   * each entity of one sentence, in order.
   */
  method AppendSentenceSpans(spans: seq<CharSpan>, startSentence: int, sentEnts: seq<SentEnt>) returns (extended: seq<CharSpan>)
    ensures extended == spans + SentenceSpans(startSentence, sentEnts)
  {
    extended := spans;
    var j := 0;
    while j < |sentEnts|
      invariant 0 <= j <= |sentEnts|
      invariant extended + SentenceSpans(startSentence, sentEnts[j..]) == spans + SentenceSpans(startSentence, sentEnts)
    {
      var ent := sentEnts[j];
      var start := startSentence + ent.startChar;
      var end := start + |ent.text|;
      SentenceSpansStep(extended, startSentence, sentEnts, j);
      extended := extended + [CharSpan(start, end, ent.tag)];
      j := j + 1;
    }
    assert sentEnts[j..] == [];
  }

  /** The document the entities are installed on. */
  class NerDoc {
    const text: string
    var ents: seq<CharSpan>

    constructor (text: string)
      ensures this.text == text && ents == []
    {
      this.text := text;
      ents := [];
    }
  }

  /** The intermediate component: runs a NER model on each sentence and installs the entities on the joined document. */
  class CustomNer {
    const pipelineNer: string -> seq<SentEnt>
    const sentences: seq<string>

    constructor (pipelineNer: string -> seq<SentEnt>, sentencesToProcess: seq<string>)
      ensures this.pipelineNer == pipelineNer && sentences == sentencesToProcess
    {
      this.pipelineNer := pipelineNer;
      sentences := sentencesToProcess;
    }

    /** Recomputes every entity's offsets in the joined text, then installs all spans at once. */
    method Call(doc: NerDoc)
      modifies doc`ents
      ensures doc.ents == SpansFrom(sentences, pipelineNer, 0)
    {
      ghost var total := SpansFrom(sentences, pipelineNer, 0);
      var startSentence := 0;
      var spans := [];
      var i := 0;
      while i < |sentences|
        invariant 0 <= i <= |sentences|
        invariant startSentence == SentenceStart(sentences, i)
        invariant spans + SpansFrom(sentences[i..], pipelineNer, startSentence) == total
      {
        var sent := sentences[i];
        var sentEnts := pipelineNer(sent);
        var endSentence := startSentence + |sent| + 1;
        SpansFromStep(spans, sentences, pipelineNer, i, startSentence);
        spans := AppendSentenceSpans(spans, startSentence, sentEnts);
        SentenceStartStep(sentences, i);
        startSentence := endSentence;
        i := i + 1;
      }
      assert sentences[i..] == [];
      doc.ents := spans;
    }
  }
}

=== FILE: wrappers.dfy ===
/** Optional values and success/failure results shared by the other modules. */
module Wrappers {

  datatype Option<+T> = None | Some(value: T)

  datatype Result<+R, +E> = Success(value: R) | Failure(error: E)
}
